=== FILE: README.md ===
# A Dafny model of the coxwave RAG chat handler

This project models the request path of the coxwave chat relay: `handleRAG` in
`main.go`, plus the session middleware that picks the session id every chat
request is filed under. For one message, `handleRAG` runs these stages in order:

1. It embeds the raw message.
2. It runs a vector search for at most five knowledge-base rows.
3. When fewer than five rows came back and the message has more than one
   white-space field, it runs a case-insensitive regex search. The pattern is
   `.*`, then the message's fields without the last one re-joined with single
   spaces, then `.*`. The search asks for the rows still missing, and its rows
   are appended after the vector rows.
4. It queries the session's last three turns, oldest first, from the `context`
   table. As written, this query fails on every request, and the handler goes
   on with an empty history (see "## Findings"). The model covers both the
   query as written and the query as evidently intended, with `created_at`
   selected in its subquery.
5. It calls the completion service with the message, the rows and the history.
6. It parses the message as JSON and extracts its `query` field.
7. It inserts the turn (session, `query` field, generated text, `NOW()`).

Every stage can end the request with its own error.

The external services are inputs to the model (`Pipeline.Env`):
- the embedding provider and the JSON marshalling of its vector;
- the two knowledge-base searches, as functions of the query they are sent;
- whether the history query runs (false for the query as written, true for the intended query);
- the completion service, as a function of the request it is sent;
- the JSON decoding of the message;
- the insert's success;
- the clock.

`Pipeline.HandleRag` returns three things: the reply, the sequence of calls the
handler makes (so the order of the stages and each request's contents are
observable), and the `context` table afterwards.

Modules, one per file:

| module | file | contents |
|---|---|---|
| `Wrappers` | `wrappers.dfy` | `Option`, `Result` |
| `Text` | `text.dfy` | Go's `strings.Fields` (Unicode white space) and `strings.Join`; `FieldsScan`, Go's one-pass scan, proved equal to the recursive definition |
| `Rows` | `rows.dfy` | result rows with nullable columns; the `for rows.Next() { rows.Scan(...) }` loop |
| `Retrieval` | `retrieval.dfy` | the fallback decision, its pattern and limit, and the merge of both searches |
| `History` | `history.dfy` | the `context` table as a sequence of rows in insertion order; the DESC/LIMIT 3/ASC window query |
| `Pipeline` | `pipeline.dfy` | the seven stages, the call trace, and the stored turn |
| `Session` | `session.dfy` | cookie reuse or a fresh id made of 16 random bytes in lower-case hex, and the cookie set for it |

Behaviour of `main.go` that the model keeps as written:
- The regex pattern is cut from the raw message (main.go:249-258), which for
  the web client is the JSON text `{"query": ...}`.
  `Retrieval.JsonMessageFallback` shows the brace, the key and the quotes
  ending up in the pattern.
- The fallback runs as soon as the message has two fields (main.go:251), so a
  two-field message falls back with a one-field pattern.
- The message is parsed as JSON only after the completion call
  (main.go:308-322). A malformed message is not rejected before the external
  calls: they all run first (`Pipeline.QueryCheckedLast`).
- The error of the history query is not checked (main.go:280-291). A failed
  query yields no rows, so the request goes on with an empty history
  (`Pipeline.HistoryOutageTolerated`). As written the query always fails
  (see "## Findings"). Only a row that cannot be scanned ends
  it (main.go:296-298).
- A failed insert is returned as an error, and the generated text is
  discarded (main.go:324-330).
- The generated text is returned verbatim (main.go:332). The handler does not
  parse it.

## Model

| member | source | states |
|---|---|---|
| Text.Fields | main.go:249 | every field `strings.Fields` returns is a non-empty run of non-space characters, and there are at most as many fields as characters |
| Text.FieldsOfJoin | main.go:249-252 | splitting the single-space join of any words gives back exactly those words, so the fallback phrase has the message's fields minus the last |
| Text.FieldsScan | main.go:249 | Go's one-pass scan (a start index, -1 outside a field) computes the same fields as the recursive definition |
| Rows.ScanRows | main.go:237-244 | the scan loop succeeds exactly when no row has a NULL column; it then yields one entry per row, in store order, with each row's question and answer |
| Retrieval.PartialQuery | main.go:251-252 | the phrase splits into exactly the message's fields without the last, and it is those fields joined with single spaces |
| Retrieval.FallbackQuery | main.go:248-258 | the regex search is issued exactly when fewer than 5 vector rows were found and the message has more than one field; its limit is 5 minus the rows found and is positive; its pattern is `.*`, then the message's fields without the last joined with single spaces, then `.*` |
| Retrieval.Retrieve | main.go:226-272 | the fallback is issued exactly when the vector rows all scanned, there are fewer than 5 and the message has more than one field; merged rows are the vector rows then the regex rows; each query or scan error aborts with its own error, and a failure is a regex error exactly when the regex search was issued; retrieval fails only when a query or a scan of an issued search failed |
| Retrieval.MergedWithinLimit | main.go:231-258 | when both stores honour the LIMIT they are sent, the merged result holds at most 5 entries |
| Retrieval.PlainQuestionFallback | main.go:248-258 | "반품은 어떻게 하나요" with 2 vector hits issues the pattern `.*반품은 어떻게.*` with limit 3 |
| Retrieval.OneWordNoFallback | main.go:248-251 | a one-word message never falls back, even with no vector hits |
| Retrieval.JsonMessageFallback | main.go:249-258 | for the JSON message `{"query":"반품 문의"}` with 4 vector hits, the pattern is `.*{"query":"반품.*` with limit 1 |
| History.SessionRows | main.go:284-285 | the rows selected for a session all carry that session id |
| History.SessionRowsMembers | main.go:284-285 | a row is selected exactly when it is in the table and carries the session id |
| History.SessionRowsChronological | main.go:284-289 | selecting one session's rows keeps a chronological table chronological |
| History.RecentFirst | main.go:286-287 | the DESC subquery returns at most LIMIT rows |
| History.Window | main.go:280-290 | the history window never holds more than 3 rows |
| History.RecentFirstReversed | main.go:282-289 | newest-first with a LIMIT and then re-ordered ascending, the window is the session's last k rows in table order |
| History.WindowIsMostRecent | main.go:280-290 | for the intended query (with `created_at` selected in the subquery), in a chronological table the window holds min(3, n) rows of the session: its newest rows, oldest first, each newer than every row left out |
| History.WindowRowsBelong | main.go:285 | every window row is a table row of the requesting session |
| History.AppendedRowEndsWindow | main.go:280-290 | a row appended with a `created_at` later than every stored row is the newest entry of its session's next window |
| History.FetchHistory | main.go:280-300 | when the query fails, as the query as written always does, the history is empty and no error; when the intended query runs it fails exactly when a window row has a NULL column, and else it holds one entry per window row, in window order |
| History.NewSessionEmptyHistory | main.go:280-300 | a session with no stored turn gets an empty history, not an error |
| Pipeline.Persist | main.go:313-332 | after a successful completion call, the request succeeds exactly when the message has a `query` field and the insert succeeds; the row stores that field and the generated text, is appended to the table only on success; a JSON or missing-field error is returned exactly when no insert was made |
| Pipeline.Generation | main.go:280-332 | the history error is returned exactly when the history does not scan; the completion call comes right after the history query and receives the message, the merged rows and the history |
| Pipeline.Search | main.go:215-272 | the embedding call comes first and the vector search second; a regex search with query q is made exactly when the retrieval decides on the fallback q; the merged rows or the retrieval error are the retrieval's, and a retrieval error is reported by the search that made the last call |
| Pipeline.HandleRag | main.go:213-333 | calls are made in stage order, starting with the raw message's embedding. A failure leaves the table unchanged and comes from the stage of the last call. A success appends exactly the turn (session, `query` field, generated text, `NOW()`) and returns the generated text. An insert comes right after a completion call that produced text, and the request succeeds exactly when the insert does. JSON errors arise only after a completion that produced text |
| Pipeline.PersistedIffAllStagesSucceed | main.go:213-333 | the request succeeds exactly when the embedding, retrieval, history scan, completion call, `query` field and insert all succeed; it then returns the generated text and the table gains exactly that turn |
| Pipeline.EmbeddingFailureStops | main.go:215-223 | an embedding or marshalling failure ends the request with the embedding error after the embedding call alone, with the table unchanged |
| Pipeline.RetrievalFailureReported | main.go:226-272 | a retrieval failure ends the request with that failure's cause, with the table unchanged |
| Pipeline.GenerationNeedsSearch | main.go:215-272 | a completion call is made only after the embedding and both searches succeeded |
| Pipeline.GenerationRequestContents | main.go:308 | the completion request carries the raw message, the merged retrieval result and the scanned history window |
| Pipeline.HistoryFailureCause | main.go:280-300 | the history error is returned exactly when embedding and retrieval succeeded, the history query ran and a row of the window held a NULL; as written the query never runs, so the error never occurs |
| Pipeline.HistoryOutageTolerated | main.go:280-300 | when the history query fails, as the query as written always does, the history error is never returned and the completion call sees an empty history |
| Pipeline.GenerationRequestBounded | main.go:226-300 | when the stores honour their LIMITs, the completion call receives at most 5 retrieved rows and at most 3 history turns |
| Pipeline.StoredTurnEndsNextHistory | main.go:324-326 | for the intended history query, and when `NOW()` is later than every stored turn, after a success the next request's history for the session ends with the stored question and the returned text |
| Pipeline.StoredTurnMissedAsWritten | main.go:280-291 | with the history query as written, the next request's history is empty even after a turn was stored, while the intended query returns a non-empty history ending with that turn |
| Pipeline.TableStaysChronological | main.go:324-326 | when `NOW()` is later than every stored turn, the table stays in creation order |
| Session.HexEncode | main.go:118 | the id has two lower-case hex digits per byte |
| Session.HexRoundTrip | main.go:118 | decoding the hex encoding gives the random bytes back |
| Session.HexEncodeInjective | main.go:112-118 | different random bytes give different session ids |
| Session.GenerateSessionId | main.go:112-119 | an id exists exactly when the random source succeeds; it is 32 lower-case hex digits that decode to the 16 random bytes |
| Session.ChooseSession | main.go:80-104 | a non-empty cookie value is reused verbatim. Otherwise a fresh id is issued exactly when the random source succeeds, and a failing random source gives an internal error; a fresh id is 32 lower-case hex digits that decode to the random bytes, set as cookie `session_id` with path `/`, HttpOnly, Secure and max age 3600 |
| Session.SessionIdNonEmpty | main.go:80-106 | every request passed on to the handlers carries a non-empty session id |
| Session.IssuedCookieIsKept | main.go:80-103 | a browser that sends back its issued cookie keeps the same session on the next request |

## Left out

- Transport: HTTP routing, the websocket upgrade and read/write loop, cookie headers, the 500 response body, and static files. The middleware's decision is modelled; the wire is not.
- `chatHistoryHandler`: it serves history to the browser and is not on the chat path.
- The embedding provider, its float vector and `json.Marshal` of it are one input: the marshalled text, or None when the call or the marshalling fails. A NaN in the vector, which makes the marshalling fail, is folded into that None.
- The marshalling of the retrieval rows and of the history (main.go:275-278, 302-305) is not modelled. These are maps of strings, which always marshal; an empty result marshals as `null`. The model passes the entries themselves to the completion call.
- The prompt text and the OpenAI request and response formats (`callGPT`, `generateEmbedding`) are left out. The completion service is a function from the request to the generated text, or None for any failure.
- pgvector distances, the `< 1` threshold and PostgreSQL regex matching are left out. Each search's rows are the store's answer to the query it is sent, so which rows match is not modelled; only the LIMIT bound can be assumed (`Rows.HonoursLimit`).
- `rows.Err()` is never checked by the handler, so a result set cut short by an error mid-iteration is indistinguishable from a shorter one. For the two knowledge-base searches the model's row sequences are whatever the loop saw.
- History.FetchHistory: a history read cut short mid-iteration by the unchecked `rows.Err()` (main.go:292-300) is not modelled. The model yields the whole window, or no rows when the query fails.
- The WebSocket message is a Go byte string (main.go:197) and may be invalid UTF-8. The model's strings are sequences of Unicode scalar values, so invalid byte sequences, and how `strings.Fields` and the regex treat them, are not modelled.
- The single shared `pgx.Conn` used by concurrent requests, and the race between two turns of one session, are left out. One request is modelled at a time.
- Go's `strings.Fields` and `hex.EncodeToString` are library code that is not part of this model. `Text.Fields` and `Session.HexEncode` follow their documented behaviour, and `Session.HexDecode` is a reference inverse for the round trip.
- `crypto/rand` is an input: the 16 bytes it would fill, or None when it fails.
- History.Window: the table's insertion order stands in for `ORDER BY created_at` (main.go:286, 289). The two agree on a chronological table, one whose `created_at` strictly increases with insertion (`History.Chronological`), and `Pipeline.TableStaysChronological` keeps a table chronological when `NOW()` is later than every stored turn. A turn stored with an earlier or equal `NOW()` may be placed differently by the database than by the model.
- History.WindowIsMostRecent: assumes a strictly increasing `created_at`. Turns stored with equal `NOW()` values may be ordered either way by the database, and the model takes insertion order.
- Logging (`log.Printf`) is left out.

## Findings

| source | as written | input that shows it | evidently intended | confidence | as-written member | corrected member |
|---|---|---|---|---|---|---|
| main.go:280-291 | the subquery selects only `question, answer`, but the outer query orders by `created_at`, which the derived table does not have; the database rejects the statement, the error is not checked, and every request sees an empty history | any request after a turn of the same session was stored | the subquery also selects `created_at`, as `chatHistoryHandler`'s history query does (main.go:130-139), so the window holds the session's last three turns, oldest first | high, from reading the SQL; not executed | Pipeline.StoredTurnMissedAsWritten | Pipeline.StoredTurnEndsNextHistory |

=== FILE: history.dfy ===
/**
 * The conversation history: the `context` table of stored turns and the
 * window of the three most recent turns of a session, fetched newest-first
 * and presented oldest-first. The window is what the history query returns
 * once its subquery also selects `created_at`, which the outer ORDER BY
 * needs; the query as written selects only `question, answer` there, fails,
 * and yields no rows (`FetchHistory` with `queryRuns` false).
 */
module History {
  import opened Wrappers
  import opened Rows

  /**
   * A row of the `context` table. The handler only ever writes non-NULL
   * question and answer, but the columns admit NULL.
   */
  datatype ContextRow = ContextRow(session: string, question: Option<string>, answer: Option<string>, createdAt: int)

  /** The LIMIT of the history subquery. */
  const WindowSize: nat := 3

  function Min(a: nat, b: nat): nat {
    if a <= b then a else b
  }

  /** Every row was created strictly later than the rows before it. */
  predicate Chronological(rows: seq<ContextRow>) {
    forall i, j :: 0 <= i < j < |rows| ==> rows[i].createdAt < rows[j].createdAt
  }

  /** The rows of one session, in table order (`WHERE session_id = $1`). */
  function SessionRows(log: seq<ContextRow>, session: string): (r: seq<ContextRow>)
    ensures |r| <= |log|
    ensures forall i :: 0 <= i < |r| ==> r[i].session == session
  {
    if log == [] then []
    else
      var last := log[|log| - 1];
      SessionRows(log[..|log| - 1], session) + (if last.session == session then [last] else [])
  }

  /** The session's rows are exactly the table rows carrying its id. */
  lemma {:induction false} SessionRowsMembers(log: seq<ContextRow>, session: string)
    ensures forall x :: x in SessionRows(log, session) <==> x in log && x.session == session
  {
    if log != [] {
      var init := log[..|log| - 1];
      SessionRowsMembers(init, session);
      assert log == init + [log[|log| - 1]];
    }
  }

  /** Selecting one session's rows keeps a chronological table chronological. */
  lemma {:induction false} SessionRowsChronological(log: seq<ContextRow>, session: string)
    requires Chronological(log)
    ensures Chronological(SessionRows(log, session))
  {
    if log != [] {
      var init := log[..|log| - 1];
      var last := log[|log| - 1];
      assert Chronological(init);
      SessionRowsChronological(init, session);
      var t := SessionRows(init, session);
      if last.session == session {
        SessionRowsMembers(init, session);
        forall i | 0 <= i < |t| ensures t[i].createdAt < last.createdAt {
          assert t[i] in init;
          var k :| 0 <= k < |init| && init[k] == t[i];
          assert log[k] == init[k];
        }
      }
    }
  }

  /** The `ORDER BY created_at DESC LIMIT k` subquery: the session's last `k` rows, newest first. */
  function RecentFirst(log: seq<ContextRow>, session: string, k: nat): (r: seq<ContextRow>)
    ensures |r| <= k
  {
    if log == [] || k == 0 then []
    else
      var last := log[|log| - 1];
      if last.session == session then [last] + RecentFirst(log[..|log| - 1], session, k - 1)
      else RecentFirst(log[..|log| - 1], session, k)
  }

  function Reverse<T>(xs: seq<T>): (r: seq<T>)
    ensures |r| == |xs|
    ensures forall i :: 0 <= i < |xs| ==> r[i] == xs[|xs| - 1 - i]
  {
    if xs == [] then [] else Reverse(xs[1..]) + [xs[0]]
  }

  /** The last `k` elements of `xs` (all of them when there are fewer). */
  function LastN<T>(xs: seq<T>, k: nat): seq<T> {
    xs[|xs| - Min(k, |xs|)..]
  }

  /** The outer `ORDER BY created_at ASC` over the subquery: the history window. */
  function Window(log: seq<ContextRow>, session: string): (w: seq<ContextRow>)
    ensures |w| <= WindowSize
  {
    Reverse(RecentFirst(log, session, WindowSize))
  }

  lemma LastNSnoc<T>(xs: seq<T>, x: T, k: nat)
    requires k > 0
    ensures LastN(xs + [x], k) == LastN(xs, k - 1) + [x]
  {
    var m := |xs|;
    assert Min(k, m + 1) == Min(k - 1, m) + 1;
    assert (xs + [x])[m - Min(k - 1, m)..] == xs[m - Min(k - 1, m)..] + [x];
  }

  /**
   * Reading the session's rows newest-first with a LIMIT and reversing them
   * gives the session's last `k` rows in table order.
   */
  lemma {:induction false} RecentFirstReversed(log: seq<ContextRow>, session: string, k: nat)
    ensures Reverse(RecentFirst(log, session, k)) == LastN(SessionRows(log, session), k)
  {
    if log == [] || k == 0 {
    } else {
      var init := log[..|log| - 1];
      var last := log[|log| - 1];
      if last.session == session {
        RecentFirstReversed(init, session, k - 1);
        var rf := RecentFirst(init, session, k - 1);
        assert ([last] + rf)[1..] == rf;
        LastNSnoc(SessionRows(init, session), last, k);
      } else {
        RecentFirstReversed(init, session, k);
      }
    }
  }

  /**
   * In a chronological table the window holds the min(3, n) most recent rows
   * of the session, oldest first, and every other row of the session is older
   * than all of them.
   */
  lemma WindowIsMostRecent(log: seq<ContextRow>, session: string)
    requires Chronological(log)
    ensures var t := SessionRows(log, session);
            var w := Window(log, session);
            && |w| == Min(WindowSize, |t|)
            && w == t[|t| - |w|..]
            && Chronological(w)
            && forall i, j :: 0 <= i < |t| - |w| <= j < |t| ==> t[i].createdAt < t[j].createdAt
  {
    RecentFirstReversed(log, session, WindowSize);
    SessionRowsChronological(log, session);
  }

  /** Every row of the window belongs to the session and is a row of the table. */
  lemma WindowRowsBelong(log: seq<ContextRow>, session: string)
    ensures forall i :: 0 <= i < |Window(log, session)| ==>
              Window(log, session)[i].session == session && Window(log, session)[i] in log
  {
    RecentFirstReversed(log, session, WindowSize);
    SessionRowsMembers(log, session);
    var t := SessionRows(log, session);
    var w := Window(log, session);
    assert forall i :: 0 <= i < |w| ==> w[i] == t[|t| - |w| + i];
  }

  /**
   * A row appended later than every stored row is the newest entry of its
   * session's next window.
   */
  lemma {:induction false} AppendedRowEndsWindow(log: seq<ContextRow>, row: ContextRow)
    requires forall i :: 0 <= i < |log| ==> log[i].createdAt < row.createdAt
    ensures var w := Window(log + [row], row.session);
            |w| > 0 && w[|w| - 1] == row
  {
    var log' := log + [row];
    assert log'[..|log'| - 1] == log;
    assert RecentFirst(log', row.session, WindowSize)
        == [row] + RecentFirst(log, row.session, WindowSize - 1);
  }

  /** The (question, answer) columns the history query selects. */
  function AsRows(rows: seq<ContextRow>): (r: seq<Row>)
    ensures |r| == |rows|
    ensures forall i :: 0 <= i < |rows| ==> r[i] == Row(rows[i].question, rows[i].answer)
  {
    if rows == [] then [] else [Row(rows[0].question, rows[0].answer)] + AsRows(rows[1..])
  }

  /**
   * The history stage of the handler. A failed query (`queryRuns` false) is
   * never checked, and the failed result set yields no rows, so the history
   * is then empty; otherwise a row that cannot be scanned aborts the request.
   */
  function FetchHistory(log: seq<ContextRow>, session: string, queryRuns: bool): (h: Option<seq<Entry>>)
    ensures !queryRuns ==> h == Some([])
    ensures queryRuns ==>
              var w := Window(log, session);
              && (h.Some? <==> forall i :: 0 <= i < |w| ==> w[i].question.Some? && w[i].answer.Some?)
              && (h.Some? ==>
                    && |h.value| == |w|
                    && forall i :: 0 <= i < |w| ==> h.value[i] == Entry(w[i].question.value, w[i].answer.value))
  {
    if !queryRuns then Some([])
    else
      ScanRows(AsRows(Window(log, session)))
  }

  /** A session with no stored turn has nothing in its recent rows. */
  lemma {:induction false} AbsentSessionNoRows(log: seq<ContextRow>, session: string, k: nat)
    requires forall i :: 0 <= i < |log| ==> log[i].session != session
    ensures RecentFirst(log, session, k) == []
  {
    if log != [] && k > 0 {
      var init := log[..|log| - 1];
      assert forall i :: 0 <= i < |init| ==> init[i] == log[i];
      AbsentSessionNoRows(init, session, k);
    }
  }

  /** A new session gets an empty history, not an error. */
  lemma NewSessionEmptyHistory(log: seq<ContextRow>, session: string, queryRuns: bool)
    requires forall i :: 0 <= i < |log| ==> log[i].session != session
    ensures FetchHistory(log, session, queryRuns) == Some([])
  {
    AbsentSessionNoRows(log, session, WindowSize);
  }
}


=== FILE: pipeline.dfy ===
/**
 * `handleRAG`: embedding, vector search, optional regex search, history,
 * generation, extraction of the `query` field from the message, and the insert
 * of the new turn, each stage able to end the request with its own error.
 * External services are inputs (`Env`); the model records every call the
 * handler makes and the `context` table after the request.
 */
module Pipeline {
  import opened Wrappers
  import opened Text
  import opened Rows
  import opened Retrieval
  import opened History

  /** The error returns of the handler, tagged with the stage that produced them. */
  datatype RagError =
    | EmbeddingFailed
    | RetrievalFailed(cause: RetrievalError)
    | HistoryScanFailed
    | GenerationFailed
    | QueryJsonInvalid
    | QueryFieldMissing
    | InsertFailed

  /** What the completion call receives: the raw message, the merged rows and the history. */
  datatype GenerationRequest = GenerationRequest(query: string, relevant: seq<Entry>, context: seq<Entry>)

  /** The message after `json.Unmarshal` into a `map[string]string`. */
  datatype Payload = Undecodable | Decoded(fields: map<string, string>)

  /** A call the handler makes to a service or a store. */
  datatype Call =
    | Embed(text: string)
    | VectorSearch(embedding: string)
    | LexicalSearch(query: LexicalQuery)
    | HistoryQuery(session: string)
    | Generate(request: GenerationRequest)
    | Insert(row: ContextRow)

  /**
   * The world the handler runs in. `embedding` is the marshalled vector, or
   * None when the provider call or the marshalling failed; `lexicalSearch` and
   * `generate` answer whatever request they are sent; `now` is the insert's
   * `NOW()`. `historyQueryRuns` is false when the history query fails, as the
   * query written in main.go always does (see `StoredTurnMissedAsWritten`),
   * and true for the query with `created_at` selected in its subquery.
   */
  datatype Env = Env(
    embedding: Option<string>,
    vectorSearch: QueryOutcome,
    lexicalSearch: LexicalQuery -> QueryOutcome,
    historyQueryRuns: bool,
    generate: GenerationRequest -> Option<string>,
    payload: Payload,
    insertSucceeds: bool,
    now: int)

  /** The handler's return value, the calls it made in order, and the `context` table afterwards. */
  datatype Run = Run(reply: Result<string, RagError>, calls: seq<Call>, log: seq<ContextRow>)

  /** Position of a call's stage in the handler's fixed order. */
  function Stage(c: Call): nat {
    match c
    case Embed(_) => 0
    case VectorSearch(_) => 1
    case LexicalSearch(_) => 2
    case HistoryQuery(_) => 3
    case Generate(_) => 4
    case Insert(_) => 5
  }

  /** The stage whose call is the last one made before the error is returned. */
  function FailedAt(e: RagError): nat {
    match e
    case EmbeddingFailed => 0
    case RetrievalFailed(cause) =>
      if cause == VectorQueryFailed || cause == VectorScanFailed then 1 else 2
    case HistoryScanFailed => 3
    case GenerationFailed => 4
    case QueryJsonInvalid => 4
    case QueryFieldMissing => 4
    case InsertFailed => 5
  }

  /** Each call comes from a later stage than the call before it. */
  predicate InStageOrder(calls: seq<Call>) {
    forall i :: 0 < i < |calls| ==> Stage(calls[i - 1]) < Stage(calls[i])
  }

  /** Appends the next call; the calls stay in stage order. */
  function Then(calls: seq<Call>, c: Call): (r: seq<Call>)
    requires InStageOrder(calls)
    requires |calls| == 0 || Stage(calls[|calls| - 1]) < Stage(c)
    ensures r == calls + [c]
    ensures InStageOrder(r)
  {
    calls + [c]
  }

  /** The `query` field of the decoded message, or the error for its absence. */
  function QueryField(p: Payload): (r: Result<string, RagError>)
    ensures r.Success? <==> p.Decoded? && "query" in p.fields
    ensures r.Success? ==> r.value == p.fields["query"]
    ensures r.Failure? ==> r.error == (if p.Undecodable? then QueryJsonInvalid else QueryFieldMissing)
  {
    match p
    case Undecodable => Failure(QueryJsonInvalid)
    case Decoded(fields) =>
      if "query" in fields then Success(fields["query"]) else Failure(QueryFieldMissing)
  }

  /** The turn the handler stores: the session, the message's `query` field, the generated text. */
  function Turn(session: string, question: string, answer: string, now: int): ContextRow {
    ContextRow(session, Some(question), Some(answer), now)
  }

  /** In stage order, no call comes from a later stage than the last one. */
  lemma {:induction false} StagesIncrease(calls: seq<Call>)
    requires InStageOrder(calls)
    ensures forall i, j :: 0 <= i < j < |calls| ==> Stage(calls[i]) < Stage(calls[j])
  {
    if |calls| > 1 {
      var init := calls[..|calls| - 1];
      assert InStageOrder(init) by {
        forall i | 0 < i < |init| ensures Stage(init[i - 1]) < Stage(init[i]) {
          assert init[i - 1] == calls[i - 1] && init[i] == calls[i];
        }
      }
      StagesIncrease(init);
      forall i, j | 0 <= i < j < |calls| ensures Stage(calls[i]) < Stage(calls[j]) {
        assert i < |init| && calls[i] == init[i];
        if j < |calls| - 1 {
          assert calls[j] == init[j];
        } else if i < j - 1 {
          assert Stage(init[i]) < Stage(init[j - 1]);
        }
      }
    }
  }

  /** No call comes from a later stage than the last call. */
  lemma StagesUpToLast(calls: seq<Call>)
    requires |calls| > 0 && InStageOrder(calls)
    ensures forall i :: 0 <= i < |calls| ==> Stage(calls[i]) <= Stage(Last(calls))
  {
    StagesIncrease(calls);
  }

  function Last(calls: seq<Call>): Call
    requires |calls| > 0
  {
    calls[|calls| - 1]
  }

  /**
   * The shape of every finished request: the calls are in stage order; a
   * failure leaves the table alone and was reported by the stage of the last
   * call; a success ends with the insert and appended exactly the inserted row,
   * whose answer is the returned text.
   */
  predicate Settled(run: Run, log: seq<ContextRow>) {
    && |run.calls| > 0
    && InStageOrder(run.calls)
    && (run.reply.Failure? ==> run.log == log && Stage(Last(run.calls)) == FailedAt(run.reply.error))
    && (run.reply.Success? ==>
          && Last(run.calls).Insert?
          && run.log == log + [Last(run.calls).row]
          && Last(run.calls).row.answer == Some(run.reply.value))
  }

  /**
   * An insert, if made, comes right after a generation that produced text; it
   * stores the message's `query` field with that text, and the request
   * succeeds exactly when the insert does.
   */
  predicate InsertFollowsGeneration(run: Run, session: string, env: Env)
    requires |run.calls| > 0
  {
    Last(run.calls).Insert? ==>
      && |run.calls| >= 2
      && run.calls[|run.calls| - 2].Generate?
      && QueryField(env.payload).Success?
      && var answer := env.generate(run.calls[|run.calls| - 2].request);
         && answer.Some?
         && Last(run.calls) == Insert(Turn(session, QueryField(env.payload).value, answer.value, env.now))
         && (run.reply.Success? <==> env.insertSucceeds)
  }

  /**
   * The message is parsed only after the completion call: a JSON or missing
   * field error is returned exactly when the last call was a completion call
   * that produced text, and then it is the payload's error.
   */
  predicate QueryCheckedLast(run: Run, env: Env)
    requires |run.calls| > 0
  {
    && (run.reply == Failure(QueryJsonInvalid) || run.reply == Failure(QueryFieldMissing) ==>
          Last(run.calls).Generate? && env.generate(Last(run.calls).request).Some?)
    && (Last(run.calls).Generate? && env.generate(Last(run.calls).request).Some? ==>
          QueryField(env.payload).Failure? && run.reply == Failure(QueryField(env.payload).error))
  }

  /**
   * Stages 6 and 7, after a successful generation: extract the `query` field,
   * then insert the turn; an insert failure is an error, not the answer.
   */
  function Persist(session: string, log: seq<ContextRow>, env: Env, asked: seq<Call>, answer: string): (run: Run)
    requires |asked| > 0 && InStageOrder(asked) && Last(asked).Generate?
    requires env.generate(Last(asked).request) == Some(answer)
    ensures Settled(run, log)
    ensures InsertFollowsGeneration(run, session, env)
    ensures |asked| <= |run.calls| <= |asked| + 1
    ensures run.calls[0] == asked[0] && run.calls[|asked| - 1] == Last(asked)
    ensures QueryCheckedLast(run, env)
  {
    match QueryField(env.payload)
    case Failure(e) => Run(Failure(e), asked, log)
    case Success(question) =>
      var row := Turn(session, question, answer, env.now);
      var inserted := Then(asked, Insert(row));
      if env.insertSucceeds then Run(Success(answer), inserted, log + [row])
      else Run(Failure(InsertFailed), inserted, log)
  }

  /** Stages 4 and 5: the history query and the completion call. */
  function Generation(message: string, session: string, log: seq<ContextRow>, env: Env,
                      fetched: seq<Call>, relevant: seq<Entry>): (run: Run)
    requires |fetched| > 0 && InStageOrder(fetched) && Stage(Last(fetched)) == 3
    ensures Settled(run, log)
    ensures |fetched| <= |run.calls| && run.calls[0] == fetched[0]
    ensures |run.calls| > |fetched| ==>
              && FetchHistory(log, session, env.historyQueryRuns).Some?
              && run.calls[|fetched|]
                 == Generate(GenerationRequest(message, relevant, FetchHistory(log, session, env.historyQueryRuns).value))
    ensures InsertFollowsGeneration(run, session, env)
    ensures QueryCheckedLast(run, env)
    ensures run.reply == Failure(HistoryScanFailed) <==> FetchHistory(log, session, env.historyQueryRuns).None?
  {
    match FetchHistory(log, session, env.historyQueryRuns)
    case None => Run(Failure(HistoryScanFailed), fetched, log)
    case Some(context) =>
      var request := GenerationRequest(message, relevant, context);
      var asked := Then(fetched, Generate(request));
      match env.generate(request)
      case None => Run(Failure(GenerationFailed), asked, log)
      case Some(answer) =>
        Persist(session, log, env, asked, answer)
  }

  /** The calls of stages 1 to 3 and the merged rows (or the retrieval error). */
  datatype Searched = Searched(calls: seq<Call>, result: Result<seq<Entry>, RetrievalError>)

  /**
   * The calls of stages 1 to 3: the embedding, the vector search, and the
   * regex search when there is a fallback.
   */
  function SearchCalls(message: string, vector: string, fallback: Option<LexicalQuery>): (calls: seq<Call>)
    ensures 2 <= |calls| <= 3 && InStageOrder(calls)
    ensures calls[0] == Embed(message) && calls[1] == VectorSearch(vector)
    ensures forall q :: LexicalSearch(q) in calls <==> fallback == Some(q)
    ensures Last(calls).LexicalSearch? <==> fallback.Some?
  {
    if fallback.Some? then [Embed(message), VectorSearch(vector), LexicalSearch(fallback.value)]
    else [Embed(message), VectorSearch(vector)]
  }

  /** Stages 2 and 3, after the embedding succeeded: vector search and the optional regex search. */
  function Search(message: string, env: Env, vector: string): (s: Searched)
    ensures |s.calls| > 0 && InStageOrder(s.calls) && s.calls[0] == Embed(message)
    ensures Stage(Last(s.calls)) <= 2
    ensures s.result.Failure? ==> Stage(Last(s.calls)) == FailedAt(RetrievalFailed(s.result.error))
    // the vector search follows the embedding, the regex search is the
    // fallback `Retrieve` decides on, and the merged rows are `Retrieve`'s
    ensures |s.calls| >= 2 && s.calls[1] == VectorSearch(vector)
    ensures forall q :: LexicalSearch(q) in s.calls <==>
              Retrieve(message, env.vectorSearch, env.lexicalSearch).fallback == Some(q)
    ensures s.result == Retrieve(message, env.vectorSearch, env.lexicalSearch).result
  {
    var retrieved := Retrieve(message, env.vectorSearch, env.lexicalSearch);
    Searched(SearchCalls(message, vector, retrieved.fallback), retrieved.result)
  }

  /**
   * `handleRAG(query, session_id)` on the `context` table `log`. The returned
   * text is the generated text itself, and it is returned only when the turn
   * was stored.
   */
  function HandleRag(message: string, session: string, log: seq<ContextRow>, env: Env): (run: Run)
    ensures Settled(run, log)
    // the first stage embeds the raw message
    ensures run.calls[0] == Embed(message)
    // the table gains the turn (message's `query` field, generated text) exactly on success
    ensures run.reply.Success? ==>
              && QueryField(env.payload).Success?
              && run.log == log + [Turn(session, QueryField(env.payload).value, run.reply.value, env.now)]
    // an insert is attempted only right after a generation that succeeded,
    // and only when the message has a `query` field
    ensures InsertFollowsGeneration(run, session, env)
    // the message is parsed for its `query` field only after the completion call
    ensures QueryCheckedLast(run, env)
  {
    match env.embedding
    case None => Run(Failure(EmbeddingFailed), Then([], Embed(message)), log)
    case Some(vector) =>
      var searched := Search(message, env, vector);
      match searched.result
      case Failure(cause) => Run(Failure(RetrievalFailed(cause)), searched.calls, log)
      case Success(relevant) =>
        var fetched := Then(searched.calls, HistoryQuery(session));
        var run := Generation(message, session, log, env, fetched, relevant);
        assert run.calls[0] == fetched[0];
        run
  }

  /** Within stages 4 to 7, the only completion call is the first call after `fetched`. */
  lemma GenerationCallAt(message: string, session: string, log: seq<ContextRow>, env: Env,
                         fetched: seq<Call>, relevant: seq<Entry>, i: nat)
    requires |fetched| > 0 && InStageOrder(fetched) && Stage(Last(fetched)) == 3
    requires i < |Generation(message, session, log, env, fetched, relevant).calls|
    requires Generation(message, session, log, env, fetched, relevant).calls[i].Generate?
    ensures i == |fetched|
    ensures Generation(message, session, log, env, fetched, relevant).calls[i].request
         == GenerationRequest(message, relevant, FetchHistory(log, session, env.historyQueryRuns).value)
  {
    var run := Generation(message, session, log, env, fetched, relevant);
    StagesIncrease(run.calls);
    if i < |fetched| {
      StagesUpToLast(fetched);
      assert false;
    }
  }

  /** Once the embedding and the searches succeed, the rest of the request is stages 4 to 7. */
  lemma ReachesGeneration(message: string, session: string, log: seq<ContextRow>, env: Env)
    requires env.embedding.Some? && Search(message, env, env.embedding.value).result.Success?
    ensures var searched := Search(message, env, env.embedding.value);
            HandleRag(message, session, log, env)
            == Generation(message, session, log, env, Then(searched.calls, HistoryQuery(session)), searched.result.value)
  {
  }

  /** A completion call is made only after the embedding and both searches succeeded. */
  lemma GenerationNeedsSearch(message: string, session: string, log: seq<ContextRow>, env: Env, i: nat)
    requires i < |HandleRag(message, session, log, env).calls|
    requires HandleRag(message, session, log, env).calls[i].Generate?
    ensures env.embedding.Some? && Search(message, env, env.embedding.value).result.Success?
  {
    var run := HandleRag(message, session, log, env);
    StagesUpToLast(run.calls);
  }

  /** After the searches succeeded, the completion call receives their rows and the history window. */
  lemma SearchedGenerationRequest(message: string, session: string, log: seq<ContextRow>, env: Env, i: nat)
    requires env.embedding.Some? && Search(message, env, env.embedding.value).result.Success?
    requires i < |HandleRag(message, session, log, env).calls|
    requires HandleRag(message, session, log, env).calls[i].Generate?
    ensures FetchHistory(log, session, env.historyQueryRuns).Some?
    ensures HandleRag(message, session, log, env).calls[i].request
         == GenerationRequest(message, Search(message, env, env.embedding.value).result.value,
                              FetchHistory(log, session, env.historyQueryRuns).value)
  {
    var searched := Search(message, env, env.embedding.value);
    ReachesGeneration(message, session, log, env);
    GenerationCallAt(message, session, log, env, Then(searched.calls, HistoryQuery(session)), searched.result.value, i);
  }

  /**
   * The completion call, when it is made, receives the raw message, the
   * merged retrieval rows and the scanned history window.
   */
  lemma GenerationRequestContents(message: string, session: string, log: seq<ContextRow>, env: Env, i: nat)
    requires i < |HandleRag(message, session, log, env).calls|
    requires HandleRag(message, session, log, env).calls[i].Generate?
    ensures var request := HandleRag(message, session, log, env).calls[i].request;
            && request.query == message
            && Retrieve(message, env.vectorSearch, env.lexicalSearch).result == Success(request.relevant)
            && FetchHistory(log, session, env.historyQueryRuns) == Some(request.context)
  {
    GenerationNeedsSearch(message, session, log, env, i);
    SearchedGenerationRequest(message, session, log, env, i);
  }

  /**
   * Every stage succeeds: the embedding, both searches and their scans, the
   * history scan, the completion call, the `query` field and the insert.
   */
  predicate AllStagesSucceed(message: string, session: string, log: seq<ContextRow>, env: Env) {
    && env.embedding.Some?
    && Retrieve(message, env.vectorSearch, env.lexicalSearch).result.Success?
    && FetchHistory(log, session, env.historyQueryRuns).Some?
    && env.generate(GenerationRequest(message, Retrieve(message, env.vectorSearch, env.lexicalSearch).result.value,
                                      FetchHistory(log, session, env.historyQueryRuns).value)).Some?
    && QueryField(env.payload).Success?
    && env.insertSucceeds
  }

  /**
   * The turn is stored, and the generated text returned, exactly when every
   * stage succeeds.
   */
  lemma PersistedIffAllStagesSucceed(message: string, session: string, log: seq<ContextRow>, env: Env)
    ensures HandleRag(message, session, log, env).reply.Success? <==> AllStagesSucceed(message, session, log, env)
    ensures AllStagesSucceed(message, session, log, env) ==>
              var run := HandleRag(message, session, log, env);
              var request := GenerationRequest(message, Retrieve(message, env.vectorSearch, env.lexicalSearch).result.value,
                                               FetchHistory(log, session, env.historyQueryRuns).value);
              var text := env.generate(request).value;
              && run.reply == Success(text)
              && run.log == log + [Turn(session, QueryField(env.payload).value, text, env.now)]
  {
    if env.embedding.Some? && Search(message, env, env.embedding.value).result.Success? {
      ReachesGeneration(message, session, log, env);
    }
  }

  /** An embedding failure ends the request after the embedding call, with the table unchanged. */
  lemma EmbeddingFailureStops(message: string, session: string, log: seq<ContextRow>, env: Env)
    requires env.embedding.None?
    ensures HandleRag(message, session, log, env) == Run(Failure(EmbeddingFailed), [Embed(message)], log)
  {
  }

  /** A retrieval failure is returned with its cause, and the table is unchanged. */
  lemma RetrievalFailureReported(message: string, session: string, log: seq<ContextRow>, env: Env)
    requires env.embedding.Some?
    requires Retrieve(message, env.vectorSearch, env.lexicalSearch).result.Failure?
    ensures var run := HandleRag(message, session, log, env);
            && run.reply == Failure(RetrievalFailed(Retrieve(message, env.vectorSearch, env.lexicalSearch).result.error))
            && run.log == log
  {
  }

  /**
   * The history error is returned exactly when the embedding and retrieval
   * succeeded, the history query ran, and a row of the window held a NULL.
   */
  lemma HistoryFailureCause(message: string, session: string, log: seq<ContextRow>, env: Env)
    ensures HandleRag(message, session, log, env).reply == Failure(HistoryScanFailed) <==>
              && env.embedding.Some?
              && Retrieve(message, env.vectorSearch, env.lexicalSearch).result.Success?
              && FetchHistory(log, session, env.historyQueryRuns).None?
  {
    if env.embedding.Some? {
      if Search(message, env, env.embedding.value).result.Success? {
        ReachesGeneration(message, session, log, env);
      }
    }
  }

  /**
   * A failed history query is not checked: when the query fails the handler
   * never returns the history error, and the completion call sees no history.
   */
  lemma HistoryOutageTolerated(message: string, session: string, log: seq<ContextRow>, env: Env)
    requires !env.historyQueryRuns
    ensures var run := HandleRag(message, session, log, env);
            && run.reply != Failure(HistoryScanFailed)
            && forall i :: 0 <= i < |run.calls| && run.calls[i].Generate? ==> run.calls[i].request.context == []
  {
    var run := HandleRag(message, session, log, env);
    HistoryFailureCause(message, session, log, env);
    forall i | 0 <= i < |run.calls| && run.calls[i].Generate? ensures run.calls[i].request.context == [] {
      GenerationRequestContents(message, session, log, env, i);
    }
  }

  /**
   * When both stores honour the LIMIT they are sent, the completion call
   * receives at most five retrieved rows and at most three history turns.
   */
  lemma GenerationRequestBounded(message: string, session: string, log: seq<ContextRow>, env: Env)
    requires HonoursLimit(env.vectorSearch, ResultLimit)
    requires forall q :: HonoursLimit(env.lexicalSearch(q), q.limit)
    ensures var calls := HandleRag(message, session, log, env).calls;
            forall i :: 0 <= i < |calls| && calls[i].Generate? ==>
              |calls[i].request.relevant| <= ResultLimit && |calls[i].request.context| <= WindowSize
  {
    var calls := HandleRag(message, session, log, env).calls;
    forall i | 0 <= i < |calls| && calls[i].Generate?
      ensures |calls[i].request.relevant| <= ResultLimit && |calls[i].request.context| <= WindowSize
    {
      GenerationRequestContents(message, session, log, env, i);
      MergedWithinLimit(message, env.vectorSearch, env.lexicalSearch);
    }
  }

  /**
   * With `NOW()` later than every stored turn, a stored turn is the newest
   * entry of the session's history on the next request (when that history
   * scans).
   */
  lemma StoredTurnEndsNextHistory(message: string, session: string, log: seq<ContextRow>, env: Env)
    requires forall i :: 0 <= i < |log| ==> log[i].createdAt < env.now
    requires HandleRag(message, session, log, env).reply.Success?
    ensures var run := HandleRag(message, session, log, env);
            var h := FetchHistory(run.log, session, true);
            h.Some? ==> |h.value| > 0 && h.value[|h.value| - 1] == Entry(QueryField(env.payload).value, run.reply.value)
  {
    var run := HandleRag(message, session, log, env);
    AppendedRowEndsWindow(log, Turn(session, QueryField(env.payload).value, run.reply.value, env.now));
  }

  /**
   * The history query as written in main.go sorts its outer select by
   * `created_at`, a column its subquery does not select, so the database
   * rejects it on every request. The error is not checked and no rows are
   * read. A stored turn then never reaches the next request's history, though
   * it ends the history the query with `created_at` selected returns.
   */
  lemma StoredTurnMissedAsWritten(message: string, session: string, log: seq<ContextRow>, env: Env)
    requires forall i :: 0 <= i < |log| ==> log[i].createdAt < env.now
    requires HandleRag(message, session, log, env).reply.Success?
    ensures var next := HandleRag(message, session, log, env).log;
            && FetchHistory(next, session, false) == Some([])
            && (FetchHistory(next, session, true).Some? ==> FetchHistory(next, session, true) != Some([]))
  {
    StoredTurnEndsNextHistory(message, session, log, env);
  }

  /**
   * With `NOW()` later than every stored turn, the table stays in creation
   * order, which the history window relies on.
   */
  lemma TableStaysChronological(message: string, session: string, log: seq<ContextRow>, env: Env)
    requires Chronological(log)
    requires forall i :: 0 <= i < |log| ==> log[i].createdAt < env.now
    ensures Chronological(HandleRag(message, session, log, env).log)
  {
    var run := HandleRag(message, session, log, env);
    if run.reply.Success? {
      var log' := run.log;
      forall i, j | 0 <= i < j < |log'| ensures log'[i].createdAt < log'[j].createdAt {
        if j == |log| {
          assert log'[i] == log[i];
        } else {
          assert log'[i] == log[i] && log'[j] == log[j];
        }
      }
    }
  }
}

=== FILE: retrieval.dfy ===
/**
 * The retrieval half of the handler: vector-search rows first, then, when fewer
 * than five came back and the raw message has more than one field, a
 * case-insensitive regex search on the message minus its last field, whose rows
 * are appended after the vector rows.
 */
module Retrieval {
  import opened Wrappers
  import opened Text
  import opened Rows

  /** The vector search's LIMIT, and the size the fallback tops the result up to. */
  const ResultLimit: nat := 5

  /** The regex search as issued: the `~*` pattern and its LIMIT. */
  datatype LexicalQuery = LexicalQuery(pattern: string, limit: nat)

  /** Which of the four retrieval error returns ended the request. */
  datatype RetrievalError =
    | VectorQueryFailed
    | VectorScanFailed
    | RegexQueryFailed
    | RegexScanFailed

  /**
   * The merged rows (or the error), together with the regex search that was
   * issued, if any.
   */
  datatype Retrieved = Retrieved(result: Result<seq<Entry>, RetrievalError>, fallback: Option<LexicalQuery>)

  /**
   * All fields of the message except the last, joined with single spaces.
   * Splitting the phrase again yields exactly the kept fields.
   */
  function PartialQuery(message: string): (p: string)
    requires |Fields(message)| > 1
    ensures Fields(p) == Fields(message)[..|Fields(message)| - 1]
    ensures |Fields(p)| == |Fields(message)| - 1
    // the kept fields are separated by exactly one space, with none around them
    ensures Join(Fields(p), " ") == p
  {
    var words := Fields(message);
    var kept := words[..|words| - 1];
    assert AllWords(kept) by {
      forall i | 0 <= i < |kept| ensures IsWord(kept[i]) {
        assert kept[i] == words[i];
      }
    }
    FieldsOfJoin(kept);
    Join(kept, " ")
  }

  /**
   * The fallback decision once `found` vector rows were scanned: a regex
   * search is issued exactly when fewer than five rows were found and the
   * message has more than one field; it matches `.*<phrase>.*` and asks for
   * the rows still missing.
   */
  function FallbackQuery(message: string, found: nat): (q: Option<LexicalQuery>)
    ensures q.Some? <==> found < ResultLimit && |Fields(message)| > 1
    ensures q.Some? ==> q.value.limit == ResultLimit - found && q.value.limit > 0
    ensures q.Some? ==>
              var p := q.value.pattern;
              && |p| >= 4 && p[..2] == ".*" && p[|p| - 2..] == ".*"
              && Fields(p[2..|p| - 2]) == Fields(message)[..|Fields(message)| - 1]
              && Join(Fields(p[2..|p| - 2]), " ") == p[2..|p| - 2]
  {
    if found < ResultLimit && |Fields(message)| > 1 then
      var phrase := PartialQuery(message);
      var p := ".*" + phrase + ".*";
      assert p[2..|p| - 2] == phrase;
      Some(LexicalQuery(p, ResultLimit - found))
    else
      None
  }

  /**
   * Vector search, conditional regex search, and the merge. `lexical` is the
   * knowledge store's answer to whatever regex search it is sent.
   */
  function Retrieve(message: string, vector: QueryOutcome, lexical: LexicalQuery -> QueryOutcome): (r: Retrieved)
    // the regex search is issued exactly when the vector rows all scanned,
    // fewer than five came back and the message has more than one field
    ensures r.fallback.Some? <==>
              vector.Rows? && ScanRows(vector.rows).Some?
              && |vector.rows| < ResultLimit && |Fields(message)| > 1
    ensures r.fallback.Some? ==> r.fallback == FallbackQuery(message, |vector.rows|)
    // vector rows first, then the regex rows, each in store order
    ensures r.result.Success? ==>
              && vector.Rows?
              && |vector.rows| <= |r.result.value|
              && ScanRows(vector.rows) == Some(r.result.value[..|vector.rows|])
              && (r.fallback.None? ==> |r.result.value| == |vector.rows|)
              && (r.fallback.Some? ==>
                    var extra := lexical(r.fallback.value);
                    extra.Rows? && ScanRows(extra.rows) == Some(r.result.value[|vector.rows|..]))
    // a failure is a regex error exactly when the regex search was issued
    ensures r.result.Failure? ==>
              (r.fallback.Some? <==> r.result.error == RegexQueryFailed || r.result.error == RegexScanFailed)
    // and retrieval fails only because a query or a scan failed
    ensures r.result.Failure? ==>
              || vector.QueryError?
              || ScanRows(vector.rows).None?
              || (r.fallback.Some? &&
                    (lexical(r.fallback.value).QueryError? || ScanRows(lexical(r.fallback.value).rows).None?))
    // every query or scan error aborts retrieval with that error
    ensures vector.QueryError? ==> r.result == Failure(VectorQueryFailed)
    ensures vector.Rows? && ScanRows(vector.rows).None? ==> r.result == Failure(VectorScanFailed)
    ensures r.fallback.Some? && lexical(r.fallback.value).QueryError? ==> r.result == Failure(RegexQueryFailed)
    ensures r.fallback.Some? && lexical(r.fallback.value).Rows? && ScanRows(lexical(r.fallback.value).rows).None? ==>
              r.result == Failure(RegexScanFailed)
  {
    match vector
    case QueryError => Retrieved(Failure(VectorQueryFailed), None)
    case Rows(rows) =>
      match ScanRows(rows)
      case None => Retrieved(Failure(VectorScanFailed), None)
      case Some(found) =>
        match FallbackQuery(message, |rows|)
        case None =>
          assert found[..|rows|] == found;
          Retrieved(Success(found), None)
        case Some(q) =>
          match lexical(q)
          case QueryError => Retrieved(Failure(RegexQueryFailed), Some(q))
          case Rows(more) =>
            match ScanRows(more)
            case None => Retrieved(Failure(RegexScanFailed), Some(q))
            case Some(extra) =>
              assert (found + extra)[..|rows|] == found;
              assert (found + extra)[|rows|..] == extra;
              Retrieved(Success(found + extra), Some(q))
  }

  /**
   * When each store honours the LIMIT it is sent, the merged result never
   * holds more than five entries.
   */
  lemma MergedWithinLimit(message: string, vector: QueryOutcome, lexical: LexicalQuery -> QueryOutcome)
    requires HonoursLimit(vector, ResultLimit)
    requires forall q :: HonoursLimit(lexical(q), q.limit)
    ensures Retrieve(message, vector, lexical).result.Success? ==>
              |Retrieve(message, vector, lexical).result.value| <= ResultLimit
  {
    var r := Retrieve(message, vector, lexical);
    if r.result.Success? && r.fallback.Some? {
      var extra := lexical(r.fallback.value);
      assert HonoursLimit(extra, r.fallback.value.limit);
      assert |r.result.value| == |vector.rows| + |extra.rows|;
    }
  }

  /** The fallback for a message whose fields are known. */
  lemma FallbackFromFields(message: string, found: nat, words: seq<string>)
    requires Fields(message) == words && |words| > 1 && found < ResultLimit
    ensures FallbackQuery(message, found)
         == Some(LexicalQuery(".*" + Join(words[..|words| - 1], " ") + ".*", ResultLimit - found))
  {
  }

  /** White space separates the three words of the example question. */
  lemma PlainQuestionFields(message: string)
    requires message == "반품은 어떻게 하나요"
    ensures Fields(message) == ["반품은", "어떻게", "하나요"]
  {
    var words := ["반품은", "어떻게", "하나요"];
    assert IsWord(words[0]);
    assert IsWord(words[1]);
    assert IsWord(words[2]);
    assert Join(words, " ") == message;
    FieldsOfJoin(words);
  }

  /**
   * A three-word question with two vector hits: the regex search drops the
   * last word and asks for the three rows still missing.
   */
  lemma PlainQuestionFallback(message: string)
    requires message == "반품은 어떻게 하나요"
    ensures FallbackQuery(message, 2) == Some(LexicalQuery(".*" + ("반품은" + " " + "어떻게") + ".*", 3))
  {
    var words := ["반품은", "어떻게", "하나요"];
    PlainQuestionFields(message);
    FallbackFromFields(message, 2, words);
    var kept := ["반품은", "어떻게"];
    assert words[..2] == kept;
    assert kept[1..] == ["어떻게"];
  }

  /** A one-word question never falls back, even with no vector hits. */
  lemma OneWordNoFallback(message: string)
    requires message == "환불"
    ensures FallbackQuery(message, 0) == None
  {
    var words := ["환불"];
    assert AllWords(words) by {
      assert IsWord(words[0]);
    }
    assert Join(words, " ") == message;
    FieldsOfJoin(words);
  }

  /** The JSON message splits at its one space, inside the `query` value. */
  lemma JsonMessageFields(message: string)
    requires message == "{\"query\":\"반품 문의\"}"
    ensures Fields(message) == ["{\"query\":\"반품", "문의\"}"]
  {
    var words := ["{\"query\":\"반품", "문의\"}"];
    assert IsWord(words[0]);
    assert IsWord(words[1]);
    assert Join(words, " ") == message;
    FieldsOfJoin(words);
  }

  /**
   * The pattern is cut from the raw message: a JSON message puts its brace,
   * key and quotes into the regex.
   */
  lemma JsonMessageFallback(message: string)
    requires message == "{\"query\":\"반품 문의\"}"
    ensures FallbackQuery(message, 4) == Some(LexicalQuery(".*" + "{\"query\":\"반품" + ".*", 1))
  {
    var words := ["{\"query\":\"반품", "문의\"}"];
    JsonMessageFields(message);
    FallbackFromFields(message, 4, words);
    assert words[..1] == ["{\"query\":\"반품"];
  }
}

=== FILE: rows.dfy ===
/**
 * Query results as the database hands them back, and the row-by-row `Scan`
 * into a question/answer pair that every query loop of the handler performs.
 */
module Rows {
  import opened Wrappers

  /** A question/answer pair: the `map[string]string` the handler builds per row. */
  datatype Entry = Entry(question: string, answer: string)

  /** One result row; either text column may be NULL. */
  datatype Row = Row(question: Option<string>, answer: Option<string>)

  /**
   * The outcome of a SELECT: the query failed, or it produced rows in the
   * order the database returned them.
   */
  datatype QueryOutcome = QueryError | Rows(rows: seq<Row>)

  /** `Scan` into two Go strings succeeds only when neither column is NULL. */
  predicate Scannable(row: Row) {
    row.question.Some? && row.answer.Some?
  }

  function ToEntry(row: Row): Entry
    requires Scannable(row)
  {
    Entry(row.question.value, row.answer.value)
  }

  /**
   * The `for rows.Next() { rows.Scan(...) }` loop: every row becomes an entry,
   * in order, and the first row that cannot be scanned aborts the whole loop.
   */
  function ScanRows(rows: seq<Row>): (r: Option<seq<Entry>>)
    ensures r.Some? <==> forall i :: 0 <= i < |rows| ==> Scannable(rows[i])
    ensures r.Some? ==> |r.value| == |rows|
    ensures r.Some? ==> forall i :: 0 <= i < |rows| ==> r.value[i] == ToEntry(rows[i])
  {
    if rows == [] then Some([])
    else if !Scannable(rows[0]) then None
    else
      match ScanRows(rows[1..])
      case None => None
      case Some(rest) => Some([ToEntry(rows[0])] + rest)
  }

  /** The store returned no more rows than the query's LIMIT asked for. */
  predicate HonoursLimit(q: QueryOutcome, limit: nat) {
    q.Rows? ==> |q.rows| <= limit
  }
}

=== FILE: session.dfy ===
/**
 * `SessionMiddleware` and `generateSessionID`: a request keeps the session
 * named by its non-empty `session_id` cookie; otherwise it gets a fresh id,
 * sixteen random bytes in lower-case hex, which is also set as the cookie.
 * The random source is an input: the bytes `rand.Read` would produce, or None
 * when it fails.
 */
module Session {
  import opened Wrappers

  /** A byte as `rand.Read` fills it. */
  type Byte = b: int | 0 <= b < 256

  /** Random bytes per fresh session id. */
  const IdBytes: nat := 16

  const CookieName: string := "session_id"
  const CookiePath: string := "/"
  const CookieMaxAge: int := 3600

  /** The lower-case hex digit for a value below sixteen, as `hex.EncodeToString` writes it. */
  function HexDigit(d: int): (c: char)
    requires 0 <= d < 16
    ensures '0' <= c <= '9' || 'a' <= c <= 'f'
  {
    if d < 10 then ('0' as int + d) as char else ('a' as int + d - 10) as char
  }

  predicate IsLowerHex(c: char) {
    '0' <= c <= '9' || 'a' <= c <= 'f'
  }

  /** The value of a hex digit in either case, as `hex.DecodeString` reads it. */
  function HexValue(c: char): (r: Option<int>)
    ensures r.Some? ==> 0 <= r.value < 16
    ensures IsLowerHex(c) ==> r.Some?
  {
    if '0' <= c <= '9' then Some(c as int - '0' as int)
    else if 'a' <= c <= 'f' then Some(c as int - 'a' as int + 10)
    else if 'A' <= c <= 'F' then Some(c as int - 'A' as int + 10)
    else None
  }

  /** Two lower-case hex digits per byte, high nibble first. */
  function HexEncode(bs: seq<Byte>): (h: string)
    ensures |h| == 2 * |bs|
    ensures forall i :: 0 <= i < |h| ==> IsLowerHex(h[i])
  {
    if bs == [] then "" else [HexDigit(bs[0] / 16), HexDigit(bs[0] % 16)] + HexEncode(bs[1..])
  }

  /**
   * The inverse of `HexEncode`, accepting either case; an odd length or a
   * character that is not a hex digit is an error.
   */
  function HexDecode(h: string): (r: Option<seq<Byte>>)
    ensures |h| % 2 == 1 ==> r.None?
    ensures r.Some? ==> 2 * |r.value| == |h|
  {
    if |h| == 0 then Some([])
    else if |h| == 1 then None
    else
      match (HexValue(h[0]), HexValue(h[1]), HexDecode(h[2..]))
      case (Some(hi), Some(lo), Some(rest)) => Some([hi * 16 + lo] + rest)
      case _ => None
  }

  lemma DigitRoundTrip(d: int)
    requires 0 <= d < 16
    ensures HexValue(HexDigit(d)) == Some(d)
  {
  }

  /** Decoding the encoding gives the bytes back. */
  lemma {:induction false} HexRoundTrip(bs: seq<Byte>)
    ensures HexDecode(HexEncode(bs)) == Some(bs)
  {
    if bs != [] {
      var h := HexEncode(bs);
      DigitRoundTrip(bs[0] / 16);
      DigitRoundTrip(bs[0] % 16);
      assert h[2..] == HexEncode(bs[1..]);
      HexRoundTrip(bs[1..]);
      assert [bs[0]] + bs[1..] == bs;
    }
  }

  /** Different random bytes give different session ids. */
  lemma HexEncodeInjective(a: seq<Byte>, b: seq<Byte>)
    requires HexEncode(a) == HexEncode(b)
    ensures a == b
  {
    HexRoundTrip(a);
    HexRoundTrip(b);
  }

  /** The cookie `SessionMiddleware` sets. */
  datatype Cookie = Cookie(name: string, value: string, path: string, httpOnly: bool, secure: bool, maxAge: int)

  /**
   * What the middleware does with a request: pass it on under an existing id,
   * pass it on under a fresh id after setting the cookie, or answer 500.
   */
  datatype Decision = Reused(id: string) | Issued(id: string, cookie: Cookie) | InternalError

  /** `generateSessionID`: the hex of the random bytes, or the error of the random source. */
  function GenerateSessionId(random: Option<seq<Byte>>): (r: Option<string>)
    requires random.Some? ==> |random.value| == IdBytes
    ensures r.Some? <==> random.Some?
    ensures r.Some? ==>
              && |r.value| == 2 * IdBytes
              && (forall i :: 0 <= i < |r.value| ==> IsLowerHex(r.value[i]))
              && HexDecode(r.value) == Some(random.value)
  {
    match random
    case None => None
    case Some(bs) =>
      HexRoundTrip(bs);
      Some(HexEncode(bs))
  }

  /**
   * The middleware's choice for a request whose `session_id` cookie is
   * `cookie` (None when absent), with `random` the random source's answer.
   */
  function ChooseSession(cookie: Option<string>, random: Option<seq<Byte>>): (d: Decision)
    requires random.Some? ==> |random.value| == IdBytes
    // a non-empty cookie value is kept verbatim and nothing is set
    ensures cookie.Some? && cookie.value != "" ==> d == Reused(cookie.value)
    // otherwise a fresh id is issued, unless the random source fails, which
    // ends the request with an error
    ensures (cookie.None? || cookie.value == "") ==> if random.None? then d.InternalError? else d.Issued?
    // and a fresh id is 32 lower-case hex digits encoding the random bytes,
    // set as a session cookie for the whole site, HTTP-only, secure, for an hour
    ensures d.Issued? ==>
              && (cookie.None? || cookie.value == "")
              && |d.id| == 2 * IdBytes
              && (forall i :: 0 <= i < |d.id| ==> IsLowerHex(d.id[i]))
              && HexDecode(d.id) == Some(random.value)
              && d.cookie == Cookie(CookieName, d.id, CookiePath, true, true, CookieMaxAge)
  {
    if cookie.Some? && cookie.value != "" then
      Reused(cookie.value)
    else
      match GenerateSessionId(random)
      case None => InternalError
      case Some(id) => Issued(id, Cookie(CookieName, id, CookiePath, true, true, CookieMaxAge))
  }

  /**
   * Every request that reaches the handlers carries a non-empty session id, so
   * the handlers' own empty-id check never fires after this middleware.
   */
  lemma SessionIdNonEmpty(cookie: Option<string>, random: Option<seq<Byte>>)
    requires random.Some? ==> |random.value| == IdBytes
    ensures !ChooseSession(cookie, random).InternalError? ==> ChooseSession(cookie, random).id != ""
  {
  }

  /**
   * A browser that sends back the cookie it was issued stays in the same
   * session, whatever the random source does on the next request.
   */
  lemma IssuedCookieIsKept(cookie: Option<string>, random: Option<seq<Byte>>, next: Option<seq<Byte>>)
    requires random.Some? ==> |random.value| == IdBytes
    requires next.Some? ==> |next.value| == IdBytes
    requires ChooseSession(cookie, random).Issued?
    ensures var d := ChooseSession(cookie, random);
            ChooseSession(Some(d.cookie.value), next) == Reused(d.id)
  {
  }
}

=== FILE: text.dfy ===
/**
 * Go's `strings.Fields` and `strings.Join`, which the lexical fallback uses to
 * split the raw message on white space and glue all fields but the last back
 * together with single spaces.
 */
module Text {

  /**
   * Go's `unicode.IsSpace`: tab, line feed, vertical tab, form feed, carriage
   * return, space, U+0085 and U+00A0, and the Unicode White_Space characters
   * above Latin-1.
   */
  predicate IsSpace(c: char) {
    var n := c as int;
    || 0x09 <= n <= 0x0D || n == 0x20 || n == 0x85 || n == 0xA0 || n == 0x1680
    || 0x2000 <= n <= 0x200A || n == 0x2028 || n == 0x2029 || n == 0x202F || n == 0x205F || n == 0x3000
  }

  /** A field: a non-empty run of characters none of which is white space. */
  predicate IsWord(w: string) {
    |w| > 0 && forall i :: 0 <= i < |w| ==> !IsSpace(w[i])
  }

  predicate AllWords(ws: seq<string>) {
    forall i :: 0 <= i < |ws| ==> IsWord(ws[i])
  }

  /** Length of the longest prefix of `s` free of white space. */
  function LeadingWord(s: string): (n: nat)
    ensures n <= |s|
    ensures forall i :: 0 <= i < n ==> !IsSpace(s[i])
    ensures n < |s| ==> IsSpace(s[n])
  {
    if s == [] || IsSpace(s[0]) then 0 else 1 + LeadingWord(s[1..])
  }

  /**
   * `strings.Fields(s)`: the maximal runs of non-space characters of `s`,
   * in order; empty when `s` is empty or all white space.
   */
  function Fields(s: string): (ws: seq<string>)
    ensures AllWords(ws)
    ensures |ws| <= |s|
  {
    if s == [] then []
    else if IsSpace(s[0]) then Fields(s[1..])
    else
      var n := LeadingWord(s);
      [s[..n]] + Fields(s[n..])
  }

  /** `strings.Join(ws, sep)`: the elements separated by `sep`; "" for no elements. */
  function Join(ws: seq<string>, sep: string): string {
    if |ws| == 0 then ""
    else if |ws| == 1 then ws[0]
    else ws[0] + sep + Join(ws[1..], sep)
  }

  /** A word followed by white space (or by nothing) is the first field. */
  lemma {:induction false} FieldsCons(w: string, rest: string)
    requires IsWord(w)
    requires rest == [] || IsSpace(rest[0])
    ensures Fields(w + rest) == [w] + Fields(rest)
  {
    var s := w + rest;
    assert s[0] == w[0];
    assert LeadingWord(s) == |w| by {
      assert forall k :: 0 <= k < |w| ==> s[k] == w[k];
      if rest != [] {
        assert s[|w|] == rest[0];
      }
    }
    assert s[..|w|] == w;
    assert s[|w|..] == rest;
  }

  /**
   * Splitting a single-space join of words gives the words back: `Fields` is a
   * left inverse of `Join(_, " ")` on sequences of words.
   */
  lemma {:induction false} FieldsOfJoin(ws: seq<string>)
    requires AllWords(ws)
    ensures Fields(Join(ws, " ")) == ws
  {
    if |ws| == 0 {
    } else if |ws| == 1 {
      FieldsCons(ws[0], []);
      assert ws[0] + [] == ws[0];
    } else {
      var tail := Join(ws[1..], " ");
      assert AllWords(ws[1..]) by {
        forall i | 0 <= i < |ws[1..]| ensures IsWord(ws[1..][i]) {
          assert ws[1..][i] == ws[i + 1];
        }
      }
      FieldsOfJoin(ws[1..]);
      assert IsWord(ws[0]);
      assert Join(ws, " ") == ws[0] + (" " + tail);
      FieldsCons(ws[0], " " + tail);
      assert (" " + tail)[1..] == tail;
      assert [ws[0]] + ws[1..] == ws;
    }
  }

  /** White space before the rest contributes no field. */
  lemma SkipSpace(s: string, i: nat)
    requires i < |s| && IsSpace(s[i])
    ensures Fields(s[i..]) == Fields(s[i + 1..])
  {
    assert s[i..][1..] == s[i + 1..];
  }

  /** A run of non-space characters ended by a space is the next field. */
  lemma CloseField(s: string, start: nat, i: nat)
    requires start < i < |s| && IsSpace(s[i])
    requires forall k :: start <= k < i ==> !IsSpace(s[k])
    ensures Fields(s[start..]) == [s[start..i]] + Fields(s[i + 1..])
  {
    assert s[start..] == s[start..i] + s[i..];
    FieldsCons(s[start..i], s[i..]);
    SkipSpace(s, i);
  }

  /** A run of non-space characters reaching the end is the last field. */
  lemma EndField(s: string, start: nat)
    requires start < |s|
    requires forall k :: start <= k < |s| ==> !IsSpace(s[k])
    ensures Fields(s[start..]) == [s[start..]]
  {
    assert s[start..] == s[start..] + [];
    FieldsCons(s[start..], []);
  }

  /**
   * The state of Go's scan after reading `s[..i]`: `ws` are the fields closed
   * so far and `start` is where the open field began (-1 outside a field).
   * Together with the fields of the unread part they make up `Fields(s)`.
   */
  predicate Scanned(s: string, ws: seq<string>, start: int, i: int) {
    && 0 <= i <= |s|
    && -1 <= start < i
    && (start < 0 ==> ws + Fields(s[i..]) == Fields(s))
    && (start >= 0 ==> ws + Fields(s[start..]) == Fields(s))
    && (start >= 0 ==> forall k :: start <= k < i ==> !IsSpace(s[k]))
  }

  /** Reading a space closes the open field, if any. */
  lemma ScanSpace(s: string, ws: seq<string>, start: int, i: int)
    requires Scanned(s, ws, start, i) && i < |s| && IsSpace(s[i])
    ensures start >= 0 ==> Scanned(s, ws + [s[start..i]], -1, i + 1)
    ensures start < 0 ==> Scanned(s, ws, -1, i + 1)
  {
    if start >= 0 {
      CloseField(s, start, i);
      assert (ws + [s[start..i]]) + Fields(s[i + 1..]) == ws + Fields(s[start..]);
    } else {
      SkipSpace(s, i);
    }
  }

  /** Reading a non-space opens a field, or extends the open one. */
  lemma ScanWordChar(s: string, ws: seq<string>, start: int, i: int)
    requires Scanned(s, ws, start, i) && i < |s| && !IsSpace(s[i])
    ensures Scanned(s, ws, if start < 0 then i else start, i + 1)
  {
  }

  /** At the end of the input, the open field (if any) is the last one. */
  lemma ScanDone(s: string, ws: seq<string>, start: int)
    requires Scanned(s, ws, start, |s|)
    ensures start >= 0 ==> ws + [s[start..]] == Fields(s)
    ensures start < 0 ==> ws == Fields(s)
  {
    if start >= 0 {
      EndField(s, start);
    } else {
      assert s[|s|..] == [];
    }
  }

  /**
   * `strings.Fields` as Go writes it: one pass remembering where the current
   * field started (-1 outside a field).
   */
  method FieldsScan(s: string) returns (ws: seq<string>)
    ensures ws == Fields(s)
  {
    ws := [];
    var start := -1;
    var i := 0;
    while i < |s|
      invariant Scanned(s, ws, start, i)
    {
      if IsSpace(s[i]) {
        ScanSpace(s, ws, start, i);
        if start >= 0 {
          ws := ws + [s[start..i]];
          start := -1;
        }
      } else {
        ScanWordChar(s, ws, start, i);
        if start < 0 {
          start := i;
        }
      }
      i := i + 1;
    }
    ScanDone(s, ws, start);
    if start >= 0 {
      ws := ws + [s[start..]];
    }
  }
}

=== FILE: wrappers.dfy ===
/** Failure-carrying datatypes shared by the other modules. */
module Wrappers {

  /** A value that may be absent: a NULL column, a failed provider call, a missing cookie. */
  datatype Option<+T> = None | Some(value: T)

  /** Either a value or the error that stopped its computation. */
  datatype Result<+T, +E> = Success(value: T) | Failure(error: E)
}
